=== FILE: README.md ===
# Three small pieces of LLVM, modelled in Dafny

This project models three self-contained parts of the LLVM project and proves
properties of each model.

1. **PSV runtime-info serialiser** (`PSVRuntimeInfo::write`, DXContainer).
   A format version picks an info size and a binding size. The writer then
   emits a little-endian u32 size header, that many bytes of the runtime-info
   struct, the resource count and the binding size as little-endian u32s, and
   a binding-size prefix of every resource record, in order. Module `PSVInfo`,
   with `LittleEndian` and `Integers`.
2. **Control-flow to SCF materializer and pass driver**
   (`ControlFlowToSCFTransformation`, `LiftControlFlowToSCF`). The constructors
   the generic CFG-to-SCF structuring algorithm calls back into:
   - lifting `cf.cond_br` / `cf.switch` to `scf.if` / `scf.index_switch`;
   - the `scf.yield` branch terminator and the `scf.while` do-while loop;
   - the i32 dispatch constant and the `cf.switch` on it;
   - `ub.poison` values and the poison-returning "unreachable" terminator;
   - the pass driver that folds the per-function `changed` flag and stops at
     the first failure.

   MLIR is modelled abstractly in `ScfIR`. A value is described by the
   operation that defines it, and a region body is an immutable value that
   gets moved into a slot. Modules `ControlFlowToSCF` and `LiftPass`.
3. **Constant-evaluated `__builtin_strcmp`**. Its semantics is pinned by the
   `static_assert`s of the `strcmp` test namespace: NUL-terminated, bytes read
   unsigned, result exactly -1, 0 or 1, and an evaluation error for a null
   pointer or for reading past the end of an unterminated array. Module
   `ConstStrCmp`. The interpreter's implementation is not part of this model.
   The model is derived from the asserted behaviour.

Every member is pure: functions, lemmas, and two methods with loops (`Write`
and `RunOnOperation`).

Each operation is paired with something independent of it:
- the PSV writer with a reference reader (`Read`), proved to recover every field;
- `createStructuredBranchRegionOp` with reading back its region slots
  (`BranchRegions`);
- `createCFGSwitchOp` with lifting the switch it builds, proved to give back
  the original keys;
- the do-while loop's "after" region with a one-block evaluator;
- `strcmp` with a reference lexicographic order on C strings.

When a function fails to structure, the functions structured earlier in the
walk stay structured and the pass only signals failure
(mlir/lib/Conversion/ControlFlowToSCF/ControlFlowToSCF.cpp:168-183).
`LiftPass.RunOnOperation` shows this in its `transformed` result.

## Model

| member | source | states |
|---|---|---|
| `PSVInfo.Write` | llvm/lib/MC/DXContainerPSVInfo.cpp:18-48 | The stream holds exactly: LE32(info size), the first info-size bytes of the info struct, LE32(resource count truncated to 32 bits), LE32(binding size), then the binding-size prefix of each resource in order. Its length is 12 + info size + count × binding size. |
| `PSVInfo.FieldsDecode` | llvm/lib/MC/DXContainerPSVInfo.cpp:21-44 | Decoding the output's u32 fields gives back what `write` put there. The header is the v0/v1/v2 info size for version 0, 1 or anything ≥ 2. The count is the number of resources mod 2^32, which is the number itself when it fits. The binding-size field is the v0 binding size for versions 0 and 1 and the v2 binding size otherwise. |
| `PSVInfo.ResourceOffsets` | llvm/lib/MC/DXContainerPSVInfo.cpp:46-47 | Resource i occupies exactly binding-size bytes at offset 12 + info size + i × binding size, and holds that resource's prefix. |
| `PSVInfo.VersionsFromTwoAgree` | llvm/lib/MC/DXContainerPSVInfo.cpp:30-33 | Every version number above 2 produces byte-for-byte the output of version 2. |
| `PSVInfo.VersionOneKeepsV0Bindings` | llvm/lib/MC/DXContainerPSVInfo.cpp:22-29 | Versions 0 and 1 differ only in the info part: everything after the info bytes (count, binding size, records) is identical. |
| `PSVInfo.ReadLayout` | llvm/lib/MC/DXContainerPSVInfo.cpp:37-47 | An independent reader applied to the output recovers the info size, the info bytes, the resource count, the binding size and every record prefix in order, whenever the count fits in 32 bits. |
| `LittleEndian.DecodeEncode` | llvm/lib/MC/DXContainerPSVInfo.cpp:37 | Decoding the four little-endian bytes of a u32 gives the u32 back. |
| `LittleEndian.EncodeDecode` | llvm/lib/MC/DXContainerPSVInfo.cpp:43-44 | Every four-byte string is the encoding of the word it decodes to, so u32 fields can be compared by value. |
| `Integers.TruncU32` | llvm/lib/MC/DXContainerPSVInfo.cpp:41 | `static_cast<uint32_t>` of the resource count equals the count when it fits and is congruent to it mod 2^32 in any case. |
| `Integers.ToInt32` | mlir/lib/Conversion/ControlFlowToSCF/ControlFlowToSCF.cpp:117-131 | The `unsigned` to `int32_t` conversion used for the dispatch constant and the switch case values: the result lies in the two's-complement range [-2^31, 2^31) and is congruent to the input mod 2^32. |
| `Integers.ToInt64` | mlir/lib/Conversion/ControlFlowToSCF/ControlFlowToSCF.cpp:54-58 | Storing a zero-extended `uint64_t` case value in `int64_t`: the result lies in [-2^63, 2^63) and is congruent to the input mod 2^64. |
| `ScfIR.ZExtValue` | mlir/lib/Conversion/ControlFlowToSCF/ControlFlowToSCF.cpp:57-58 | `APInt::getZExtValue` of a case value: the stored bit pattern read as an unsigned number, which `getZExtValue` requires to be below 2^64. |
| `ScfIR.I32Attr` | mlir/lib/Conversion/ControlFlowToSCF/ControlFlowToSCF.cpp:117-131 | `getI32IntegerAttr` and the i32 case values of the dispatch switch: a 32-bit attribute whose unsigned pattern is below 2^32 and congruent to the `int32_t` value mod 2^32, so a negative value is stored as its two's-complement pattern and a non-negative one unchanged. |
| `ControlFlowToSCF.CaseKeys` | mlir/lib/Conversion/ControlFlowToSCF/ControlFlowToSCF.cpp:54-59 | One key per case value of the `cf.switch`, in the same order. Key i is congruent to case value i mod 2^64, and equals it when the top bit of the 64-bit value is clear (a value with the top bit set wraps to a negative `int64_t`). |
| `LittleEndian.EncodeU32` | llvm/lib/MC/DXContainerPSVInfo.cpp:37-44 | A u32 field is written as exactly four bytes, least significant first; the first byte is the value mod 256. |
| `ControlFlowToSCF.CreateStructuredBranchRegionOp` | mlir/lib/Conversion/ControlFlowToSCF/ControlFlowToSCF.cpp:36-77 | Succeeds exactly for cond_br and switch, and fails with the unknown-op error otherwise. cond_br becomes an If on the branch condition with then = regions[0] and else = regions[1]. switch becomes an IndexSwitch on the flag cast to index, with default = regions[0], case i = regions[i+1], and key i = case value i zero-extended and read as int64. |
| `ControlFlowToSCF.BranchRegionsRoundTrip` | mlir/lib/Conversion/ControlFlowToSCF/ControlFlowToSCF.cpp:43-69 | Reading the lifted op's region slots back in order (then, else / default, cases) gives exactly the regions passed in: none lost, duplicated or reordered. |
| `ControlFlowToSCF.CreateStructuredBranchRegionTerminatorOp` | mlir/lib/Conversion/ControlFlowToSCF/ControlFlowToSCF.cpp:79-85 | Always succeeds with a yield of exactly the given values, with their types. |
| `ControlFlowToSCF.CreateStructuredDoWhileLoopOp` | mlir/lib/Conversion/ControlFlowToSCF/ControlFlowToSCF.cpp:87-115 | Always succeeds. The loop's result types are the init values' types and it is seeded with the init values. The before region is the body with only its last block extended, by a condition on the i1-truncated condition that forwards exactly the next-iteration values. The after region is one block with one argument per init value, of the same type, ending in a yield of values of those types. |
| `ControlFlowToSCF.AfterRegionIsIdentity` | mlir/lib/Conversion/ControlFlowToSCF/ControlFlowToSCF.cpp:106-112 | Entered with any values of the loop's arity, the after region yields exactly those values in order (it is the identity). |
| `ControlFlowToSCF.GetCFGSwitchValue` | mlir/lib/Conversion/ControlFlowToSCF/ControlFlowToSCF.cpp:117-121 | The dispatch constant is an i32 whose zero-extended value is the requested unsigned value, even though it passes through `int32_t`. |
| `ControlFlowToSCF.CreateCFGSwitchOp` | mlir/lib/Conversion/ControlFlowToSCF/ControlFlowToSCF.cpp:123-131 | Builds a switch on the given flag that keeps the given default and case destinations and arguments. It stores one 32-bit case value per given value, and each zero-extends back to the given value. |
| `ControlFlowToSCF.SwitchKeysRoundTrip` | mlir/lib/Conversion/ControlFlowToSCF/ControlFlowToSCF.cpp:54-64 | A dispatch switch built by `createCFGSwitchOp` and then lifted gets index-switch keys equal to the original unsigned case values. |
| `ControlFlowToSCF.GetUndefValue` | mlir/lib/Conversion/ControlFlowToSCF/ControlFlowToSCF.cpp:133-135 | The fill value is a poison of exactly the requested type. |
| `ControlFlowToSCF.CreateUnreachableTerminator` | mlir/lib/Conversion/ControlFlowToSCF/ControlFlowToSCF.cpp:137-156 | Succeeds exactly when the region's parent is a function, and fails with the top-level-op error otherwise. On success it is a return of poison values whose types are the function's result types, one per result, in order. |
| `LiftPass.RunOnOperation` | mlir/lib/Conversion/ControlFlowToSCF/ControlFlowToSCF.cpp:164-187 | Functions with empty bodies are skipped. The pass fails iff some function with a body fails to structure. Structuring is applied, in order, exactly to the functions with a body up to and including the first failure. On success, `changed` is the OR of the per-function flags, and all analyses are preserved iff nothing changed. |
| `ConstStrCmp.StrCmp` | clang/test/AST/Interp/builtin-functions.cpp:11-38 | A null pointer on either side gives the null-dereference error and nothing else gives it. Every value is -1, 0 or 1. |
| `ConstStrCmp.Compare` | clang/test/AST/Interp/builtin-functions.cpp:11-21 | Byte-wise comparison gives only -1, 0 or 1, and its only error is reading past the end. |
| `ConstStrCmp.CompareMatchesLexOrder` | clang/test/AST/Interp/builtin-functions.cpp:11-16 | On NUL-terminated arrays the comparison succeeds. It is 0 iff the C strings are equal, -1 iff the first is lexicographically smaller (a proper prefix, or a smaller unsigned byte at the first difference), and 1 iff it is larger. |
| `ConstStrCmp.FirstDifferenceDecides` | clang/test/AST/Interp/builtin-functions.cpp:13-18 | If the first differing byte comes before any NUL and both bytes exist, the result is -1 or 1 by the unsigned order of those two bytes, whatever follows. |
| `ConstStrCmp.RunningOffTheEndFails` | clang/test/AST/Interp/builtin-functions.cpp:34-38 | If one side ends before any difference or NUL, the evaluation fails by reading past the end, with the arguments in either order. |
| `ConstStrCmp.IgnoresBytesAfterNul` | clang/test/AST/Interp/builtin-functions.cpp:19-21 | Two arrays holding the same C string compare identically against anything; bytes after the first NUL are never read. |
| `ConstStrCmp.CompareAntisymmetric` | clang/test/AST/Interp/builtin-functions.cpp:15-16 | Swapping the byte sequences negates a value and keeps an error. |
| `ConstStrCmp.StrCmpAntisymmetric` | clang/test/AST/Interp/builtin-functions.cpp:13-16 | Swapping the pointers negates a value and keeps an error. |
| `ConstStrCmp.EmptyStringsEqual` | clang/test/AST/Interp/builtin-functions.cpp:11 | `strcmp("", "")` is 0. |
| `ConstStrCmp.IdenticalStringsEqual` | clang/test/AST/Interp/builtin-functions.cpp:12 | `strcmp("abab", "abab")` is 0. |
| `ConstStrCmp.SmallerByteGivesMinusOne` | clang/test/AST/Interp/builtin-functions.cpp:13 | `strcmp("abab", "abba")` is -1. |
| `ConstStrCmp.LargerByteGivesOne` | clang/test/AST/Interp/builtin-functions.cpp:14 | `strcmp("abab", "abaa")` is 1. |
| `ConstStrCmp.LongerStringIsGreater` | clang/test/AST/Interp/builtin-functions.cpp:15-16 | `strcmp("ababa", "abab")` is 1 and `strcmp("abab", "ababa")` is -1. |
| `ConstStrCmp.HighBytesAreUnsigned` | clang/test/AST/Interp/builtin-functions.cpp:17-18 | `"a\203"` compares greater than `"a"` and than `"a\003"`. |
| `ConstStrCmp.StopsAtEmbeddedNul` | clang/test/AST/Interp/builtin-functions.cpp:19-21 | `"abab\0banana"` equals `"abab"` in both orders, and equals `"abab\0canada"`. |
| `ConstStrCmp.NullPointerIsAnError` | clang/test/AST/Interp/builtin-functions.cpp:22-31 | A null first or second argument gives the null-dereference error, not a value. |
| `ConstStrCmp.UnterminatedArraysDifferBeforeTheEnd` | clang/test/AST/Interp/builtin-functions.cpp:33 | `kFoobar` vs `kFoobazfoobar` is -1: the difference at index 5 is reached before either array ends. |
| `ConstStrCmp.UnterminatedArraysReadPastTheEnd` | clang/test/AST/Interp/builtin-functions.cpp:34-38 | `kFoobar` vs `kFoobazfoobar + 6` is the one-past-the-end error. |

## Left out

- `transformCFGToSCF`, the generic structuring algorithm (loop and region classification, dispatch-flag synthesis, irreducible graphs), is not part of this model. The driver takes it as a function parameter from a function to failure or a changed flag.
- The dominance analysis passed to `transformCFGToSCF` (`getAnalysis` / `getChildAnalysis`) is external and is omitted from the driver's model.
- `LiftPass.RunOnOperation`: the functions are given as a sequence in walk order. How the walk reaches nested functions, and whether the root operation is itself a function, are not modelled.
- MLIR ownership and mutation are not modelled: `takeBody`, new blocks, builder insertion points and source locations. Region bodies are immutable values moved into slots. The arith and ub ops the constructors create are represented by the values they define, not as ops inserted into a block.
- Diagnostics text (`emitOpError`, `emitError`) is reduced to an error kind.
- `ControlFlowToSCF.CreateCFGSwitchOp`: the attribute's element type is decided by the cf dialect's builder, which is not part of this model. The case values are modelled as 32-bit integers, the width of the dispatch flag.
- A `cf.switch` without a case-values attribute is modelled as an empty case list. `createStructuredBranchRegionOp` produces the same empty key list for both.
- `raw_ostream` I/O and the `reinterpret_cast` of the structs are not modelled. The output is a returned byte sequence, and the structs are byte sequences at least as long as the selected sizes.
- The `sizeof` values of the `dxbc::PSV` v0/v1/v2 structs come from llvm/BinaryFormat/DXContainer.h (included at DXContainerPSVInfo.cpp:10), which is not part of this model. They are u32 parameters, and no ordering between them is assumed.
- `ConstStrCmp.StrCmp`: one assumption is not pinned by the asserted cases. Each comparison step needs both bytes to be readable before either is compared; the asserted cases do not decide between this and a one-sided check. The error kind does not record which operand was at fault.
- Everything else in the builtin test file (NaN, fmin, classification, fabs) is floating-point semantics, and RUN lines and diagnostic wording are test-harness matters.

=== FILE: const_strcmp.dfy ===
/** `__builtin_strcmp` as the constant evaluator computes it: byte-by-byte
    comparison of two NUL-terminated arrays, reading each byte as unsigned,
    with result exactly -1, 0 or 1, and evaluation errors for a null pointer
    and for reading past the end of an array. */
module ConstStrCmp {
  import opened Integers
  import opened Results

  /** A pointer during constant evaluation: null, or an offset into an array of
      `char`s whose contents are known. */
  datatype Pointer = Null | Ptr(chars: seq<byte>, offset: nat)

  datatype EvalError =
    | NullDereference   // "dereferenced null pointer"
    | OnePastTheEnd     // "dereferenced one-past-the-end pointer"

  /** The bytes that can be read through a non-null pointer. */
  function Readable(p: Pointer): (r: seq<byte>)
    requires p.Ptr?
    ensures |r| <= |p.chars|
  {
    if p.offset <= |p.chars| then p.chars[p.offset..] else []
  }

  /** Comparison of the byte sequences readable through the two pointers. Each
      step reads one byte from each side, both of which must exist. */
  function Compare(s: seq<byte>, t: seq<byte>): (r: Result<int, EvalError>)
    ensures r.Success? ==> r.value == -1 || r.value == 0 || r.value == 1
    ensures r.Failure? ==> r.error == OnePastTheEnd
    decreases |s|
  {
    if |s| == 0 || |t| == 0 then Failure(OnePastTheEnd)
    else if s[0] > t[0] then Success(1)
    else if s[0] < t[0] then Success(-1)
    else if s[0] == 0 then Success(0)
    else Compare(s[1..], t[1..])
  }

  /** `__builtin_strcmp(a, b)` in a constant expression. */
  function StrCmp(a: Pointer, b: Pointer): (r: Result<int, EvalError>)
    ensures r == Failure(NullDereference) <==> a.Null? || b.Null?
    ensures r.Success? ==> r.value == -1 || r.value == 0 || r.value == 1
  {
    if a.Null? || b.Null? then Failure(NullDereference)
    else Compare(Readable(a), Readable(b))
  }

  // ----- A reference ordering on C strings -----

  predicate NulFree(s: seq<byte>) {
    forall i :: 0 <= i < |s| ==> s[i] != 0
  }

  /** `c` is the C string stored at the start of `s`: the bytes before the first NUL. */
  predicate IsCString(s: seq<byte>, c: seq<byte>) {
    |c| < |s| && s[..|c|] == c && s[|c|] == 0 && NulFree(c)
  }

  /** Lexicographic order on byte strings with bytes read as unsigned: `x` is a
      proper prefix of `y`, or the first byte where they differ is smaller in `x`. */
  predicate LexLess(x: seq<byte>, y: seq<byte>) {
    || (|x| < |y| && y[..|x|] == x)
    || exists k :: 0 <= k < |x| && k < |y| && x[..k] == y[..k] && x[k] < y[k]
  }

  lemma LexLessCons(x: seq<byte>, y: seq<byte>)
    requires |x| > 0 && |y| > 0 && x[0] == y[0]
    ensures LexLess(x, y) <==> LexLess(x[1..], y[1..])
  {
    if LexLess(x, y) {
      if !(|x| < |y| && y[..|x|] == x) {
        var k :| 0 <= k < |x| && k < |y| && x[..k] == y[..k] && x[k] < y[k];
        assert k > 0;
        assert x[1..k] == x[..k][1..] == y[..k][1..] == y[1..k];
        assert x[1..][..k - 1] == x[1..k];
        assert y[1..][..k - 1] == y[1..k];
        assert x[1..][k - 1] < y[1..][k - 1];
      } else {
        assert y[1..][..|x| - 1] == y[1..|x|];
        assert y[1..|x|] == y[..|x|][1..];
        assert y[1..][..|x| - 1] == x[1..];
      }
    }
    if LexLess(x[1..], y[1..]) {
      if !(|x| - 1 < |y| - 1 && y[1..][..|x| - 1] == x[1..]) {
        var k :| 0 <= k < |x| - 1 && k < |y| - 1 && x[1..][..k] == y[1..][..k] && x[1..][k] < y[1..][k];
        assert x[..k + 1] == [x[0]] + x[1..][..k];
        assert y[..k + 1] == [y[0]] + y[1..][..k];
        assert x[k + 1] < y[k + 1];
      } else {
        assert y[..|x|] == [y[0]] + y[1..][..|x| - 1];
        assert x == [x[0]] + x[1..];
      }
    }
  }

  /** On NUL-terminated arguments, comparison succeeds and agrees with the
      reference order on the C strings: 0 exactly when they are equal, -1
      exactly when the first is smaller, 1 exactly when it is larger. */
  lemma {:induction false} CompareMatchesLexOrder(s: seq<byte>, t: seq<byte>, cs: seq<byte>, ct: seq<byte>)
    requires IsCString(s, cs) && IsCString(t, ct)
    ensures Compare(s, t).Success?
    ensures Compare(s, t).value == 0 <==> cs == ct
    ensures Compare(s, t).value == -1 <==> LexLess(cs, ct)
    ensures Compare(s, t).value == 1 <==> LexLess(ct, cs)
    decreases |s|
  {
    if |cs| == 0 {
      assert s[0] == 0;
      if |ct| > 0 {
        assert t[0] == ct[0] != 0;
        assert ct[..0] == cs;
      }
    } else if |ct| == 0 {
      assert t[0] == 0;
      assert s[0] == cs[0] != 0;
      assert cs[..0] == ct;
    } else {
      assert s[0] == cs[0] && t[0] == ct[0];
      if cs[0] != ct[0] {
        assert cs[..0] == ct[..0];
        if cs[0] < ct[0] {
          assert !LexLess(ct, cs);
        } else {
          assert !LexLess(cs, ct);
        }
      } else {
        assert s[1..][..|cs| - 1] == cs[1..];
        assert t[1..][..|ct| - 1] == ct[1..];
        CompareMatchesLexOrder(s[1..], t[1..], cs[1..], ct[1..]);
        LexLessCons(cs, ct);
        LexLessCons(ct, cs);
        assert cs == [cs[0]] + cs[1..] && ct == [ct[0]] + ct[1..];
      }
    }
  }

  /** The first differing byte decides, as unsigned bytes, provided it comes
      before any NUL and both bytes exist: whatever follows is never read. */
  lemma {:induction false} FirstDifferenceDecides(s: seq<byte>, t: seq<byte>, k: nat)
    requires k < |s| && k < |t|
    requires s[..k] == t[..k] && NulFree(s[..k])
    requires s[k] != t[k]
    ensures Compare(s, t) == Success(if s[k] < t[k] then -1 else 1)
    decreases k
  {
    if k > 0 {
      assert s[0] == s[..k][0] == t[..k][0] == t[0];
      assert s[0] != 0;
      assert s[1..][..k - 1] == s[1..k] == t[1..k] == t[1..][..k - 1];
      FirstDifferenceDecides(s[1..], t[1..], k - 1);
    }
  }

  /** When one side runs out before any difference or NUL is found, the
      evaluation reads past the end of an array and fails. */
  lemma {:induction false} RunningOffTheEndFails(s: seq<byte>, t: seq<byte>)
    requires |s| <= |t|
    requires t[..|s|] == s && NulFree(s)
    ensures Compare(s, t) == Failure(OnePastTheEnd)
    ensures Compare(t, s) == Failure(OnePastTheEnd)
    decreases |s|
  {
    if |s| > 0 {
      assert s[0] == t[0] != 0;
      assert t[1..][..|s| - 1] == s[1..];
      RunningOffTheEndFails(s[1..], t[1..]);
    }
  }

  /** Only the bytes up to and including the first NUL matter. */
  lemma {:induction false} IgnoresBytesAfterNul(s: seq<byte>, s': seq<byte>, c: seq<byte>, t: seq<byte>)
    requires IsCString(s, c) && IsCString(s', c)
    ensures Compare(s, t) == Compare(s', t)
    decreases |c|
  {
    if |c| > 0 && |t| > 0 {
      assert s[0] == c[0] == s'[0];
      assert s[1..][..|c| - 1] == c[1..] == s'[1..][..|c| - 1];
      IgnoresBytesAfterNul(s[1..], s'[1..], c[1..], t[1..]);
    }
  }

  /** Swapping the arguments negates the result; errors are symmetric. */
  lemma {:induction false} CompareAntisymmetric(s: seq<byte>, t: seq<byte>)
    ensures Compare(t, s) == (match Compare(s, t)
                              case Success(v) => Success(-v)
                              case Failure(e) => Failure(e))
    decreases |s|
  {
    if |s| > 0 && |t| > 0 && s[0] == t[0] && s[0] != 0 {
      CompareAntisymmetric(s[1..], t[1..]);
    }
  }

  lemma StrCmpAntisymmetric(a: Pointer, b: Pointer)
    ensures StrCmp(b, a) == (match StrCmp(a, b)
                             case Success(v) => Success(-v)
                             case Failure(e) => Failure(e))
  {
    if a.Ptr? && b.Ptr? {
      CompareAntisymmetric(Readable(a), Readable(b));
    }
  }

  // ----- The asserted cases -----

  /** A string literal: its bytes followed by the terminating NUL. */
  function Literal(bytes: seq<byte>): (p: Pointer)
    ensures p.Ptr? && Readable(p) == bytes + [0]
  {
    Ptr(bytes + [0], 0)
  }

  const ABAB: seq<byte> := [0x61, 0x62, 0x61, 0x62]                                  // "abab"
  const FOOBAR: seq<byte> := [0x66, 0x6f, 0x6f, 0x62, 0x61, 0x72]                     // kFoobar, no NUL
  const FOOBAZFOOBAR: seq<byte> := [0x66, 0x6f, 0x6f, 0x62, 0x61, 0x7a] + FOOBAR       // kFoobazfoobar, no NUL

  lemma EmptyStringsEqual()
    ensures StrCmp(Literal([]), Literal([])) == Success(0)
  {
  }

  lemma IdenticalStringsEqual()
    ensures StrCmp(Literal(ABAB), Literal(ABAB)) == Success(0)
  {
    var s := ABAB + [0];
    assert IsCString(s, ABAB) by { assert s[..4] == ABAB; }
    CompareMatchesLexOrder(s, s, ABAB, ABAB);
  }

  lemma SmallerByteGivesMinusOne()
    ensures StrCmp(Literal(ABAB), Literal([0x61, 0x62, 0x62, 0x61])) == Success(-1)   // "abba"
  {
    var s, t := ABAB + [0], [0x61, 0x62, 0x62, 0x61, 0];
    assert Readable(Literal([0x61, 0x62, 0x62, 0x61])) == t;
    assert s[..2] == t[..2] == [0x61, 0x62];
    FirstDifferenceDecides(s, t, 2);
  }

  lemma LargerByteGivesOne()
    ensures StrCmp(Literal(ABAB), Literal([0x61, 0x62, 0x61, 0x61])) == Success(1)    // "abaa"
  {
    var s, t := ABAB + [0], [0x61, 0x62, 0x61, 0x61, 0];
    assert Readable(Literal([0x61, 0x62, 0x61, 0x61])) == t;
    assert s[..3] == t[..3] == [0x61, 0x62, 0x61];
    FirstDifferenceDecides(s, t, 3);
  }

  lemma LongerStringIsGreater()
    ensures StrCmp(Literal(ABAB + [0x61]), Literal(ABAB)) == Success(1)             // "ababa"
    ensures StrCmp(Literal(ABAB), Literal(ABAB + [0x61])) == Success(-1)
  {
    var s, t := ABAB + [0x61, 0], ABAB + [0];
    assert Readable(Literal(ABAB + [0x61])) == s;
    assert s[..4] == t[..4] == ABAB;
    assert s[4] == 0x61 && t[4] == 0;
    FirstDifferenceDecides(s, t, 4);
    FirstDifferenceDecides(t, s, 4);
  }

  lemma HighBytesAreUnsigned()
    ensures StrCmp(Literal([0x61, 0x83]), Literal([0x61])) == Success(1)            // "a\203", "a"
    ensures StrCmp(Literal([0x61, 0x83]), Literal([0x61, 0x03])) == Success(1)      // "a\203", "a\003"
  {
  }

  lemma StopsAtEmbeddedNul()
    ensures StrCmp(Literal(ABAB + [0] + [0x62, 0x61, 0x6e, 0x61, 0x6e, 0x61]), Literal(ABAB)) == Success(0)
    ensures StrCmp(Literal(ABAB), Literal(ABAB + [0] + [0x62, 0x61, 0x6e, 0x61, 0x6e, 0x61])) == Success(0)
    ensures StrCmp(Literal(ABAB + [0] + [0x62, 0x61, 0x6e, 0x61, 0x6e, 0x61]),
                   Literal(ABAB + [0] + [0x63, 0x61, 0x6e, 0x61, 0x64, 0x61])) == Success(0)
  {
    var abab := ABAB + [0];
    var banana := ABAB + [0] + [0x62, 0x61, 0x6e, 0x61, 0x6e, 0x61] + [0];
    var canada := ABAB + [0] + [0x63, 0x61, 0x6e, 0x61, 0x64, 0x61] + [0];
    assert IsCString(abab, ABAB) by { assert abab[..4] == ABAB; }
    assert IsCString(banana, ABAB) by { assert banana[..4] == ABAB; }
    assert IsCString(canada, ABAB) by { assert canada[..4] == ABAB; }
    CompareMatchesLexOrder(banana, abab, ABAB, ABAB);
    CompareMatchesLexOrder(abab, banana, ABAB, ABAB);
    CompareMatchesLexOrder(banana, canada, ABAB, ABAB);
  }

  lemma NullPointerIsAnError()
    ensures StrCmp(Null, Literal(ABAB)) == Failure(NullDereference)
    ensures StrCmp(Literal(ABAB), Null) == Failure(NullDereference)
  {
  }

  lemma UnterminatedArraysDifferBeforeTheEnd()
    ensures StrCmp(Ptr(FOOBAR, 0), Ptr(FOOBAZFOOBAR, 0)) == Success(-1)
  {
    assert FOOBAR[..5] == FOOBAZFOOBAR[..5] == [0x66, 0x6f, 0x6f, 0x62, 0x61];
    FirstDifferenceDecides(FOOBAR, FOOBAZFOOBAR, 5);
  }

  lemma UnterminatedArraysReadPastTheEnd()
    ensures StrCmp(Ptr(FOOBAR, 0), Ptr(FOOBAZFOOBAR, 6)) == Failure(OnePastTheEnd)
  {
  }
}

=== FILE: control_flow_to_scf.dfy ===
/** `ControlFlowToSCFTransformation`: the constructors the generic CFG-to-SCF
    structuring algorithm calls back into to build scf/func operations out of
    cf terminators and region bodies. Every constructor is pure here: the
    regions it takes over are moved into the new operation's slots. */
module ControlFlowToSCF {
  import opened Integers
  import opened Results
  import opened ScfIR

  datatype LiftError =
    | UnknownControlFlowOp   // the terminator is neither cf.cond_br nor cf.switch
    | ExpectedFuncTopLevel   // an unreachable terminator was requested outside a func.func

  predicate CaseValuesFit(caseValues: seq<APInt>) {
    forall i :: 0 <= i < |caseValues| ==> caseValues[i].bits < TWO_TO_THE_64
  }

  /** The keys an `scf.index_switch` gets for a `cf.switch`'s case values: each
      zero-extended and stored as `int64_t`. */
  function CaseKeys(caseValues: seq<APInt>): (keys: seq<int>)
    requires CaseValuesFit(caseValues)
    ensures |keys| == |caseValues|
    ensures forall i :: 0 <= i < |caseValues| ==>
              && keys[i] % TWO_TO_THE_64 == caseValues[i].bits
              && (caseValues[i].bits < TWO_TO_THE_63 ==> keys[i] == caseValues[i].bits)
  {
    seq(|caseValues|, i requires 0 <= i < |caseValues| => ToInt64(ZExtValue(caseValues[i])))
  }

  /** What `createStructuredBranchRegionOp` asserts of its callers: two bodies for a conditional
      branch, one per case plus the default for a switch. */
  predicate RegionsMatch(op: Op, regions: seq<Region>) {
    && (op.CondBranch? ==> |regions| == 2)
    && (op.Switch? ==> CaseValuesFit(op.caseValues) && |regions| == |op.caseValues| + 1)
  }

  /** `createStructuredBranchRegionOp`: lifts a conditional branch to `scf.if`
      and a switch to `scf.index_switch`, moving the region bodies into the new
      operation (the default first for a switch); fails on any other op. */
  function CreateStructuredBranchRegionOp(op: Op, resultTypes: seq<Type>, regions: seq<Region>)
    : (r: Result<Op, LiftError>)
    requires RegionsMatch(op, regions)
    ensures r.Success? <==> op.CondBranch? || op.Switch?
    ensures r.Failure? ==> r.error == UnknownControlFlowOp
    ensures op.CondBranch? ==>
              && r.value.If?
              && r.value.resultTypes == resultTypes
              && r.value.condition == op.condition
              && r.value.thenRegion == regions[0]
              && r.value.elseRegion == regions[1]
    ensures op.Switch? ==>
              && r.value.IndexSwitch?
              && r.value.resultTypes == resultTypes
              && r.value.selector == IndexCastUI(op.flag)
              && TypeOf(r.value.selector) == IndexType
              && r.value.defaultRegion == regions[0]
              && |r.value.caseRegions| == |r.value.cases| == |op.caseValues|
              && (forall i :: 0 <= i < |op.caseValues| ==>
                    && r.value.caseRegions[i] == regions[i + 1]
                    && r.value.cases[i] == ToInt64(op.caseValues[i].bits))
  {
    match op
    case CondBranch(condition, _, _, _, _) =>
      Success(If(resultTypes, condition, regions[0], regions[1]))
    case Switch(flag, _, _, caseValues, _, _) =>
      var cast := IndexCastUI(flag);
      var cases := CaseKeys(caseValues);
      Success(IndexSwitch(resultTypes, cast, cases, regions[0], regions[1..]))
    case _ =>
      Failure(UnknownControlFlowOp)
  }

  /** The region slots of a structured branch op, in the order the structuring
      algorithm hands bodies in: then/else, or default followed by the cases. */
  function BranchRegions(op: Op): seq<Region> {
    match op
    case If(_, _, thenRegion, elseRegion) => [thenRegion, elseRegion]
    case IndexSwitch(_, _, _, defaultRegion, caseRegions) => [defaultRegion] + caseRegions
    case _ => []
  }

  /** Lifting loses, duplicates and reorders no body: reading the slots back
      gives exactly the regions passed in. */
  lemma BranchRegionsRoundTrip(op: Op, resultTypes: seq<Type>, regions: seq<Region>)
    requires RegionsMatch(op, regions)
    requires op.CondBranch? || op.Switch?
    ensures BranchRegions(CreateStructuredBranchRegionOp(op, resultTypes, regions).value) == regions
  {
  }

  /** `createStructuredBranchRegionTerminatorOp`: always succeeds with an
      `scf.yield` of the given values. */
  function CreateStructuredBranchRegionTerminatorOp(results: seq<Value>): (r: Result<Op, LiftError>)
    ensures r.Success? && r.value.Yield?
    ensures r.value.results == results
  {
    Success(Yield(results))
  }

  /** The arguments of a block with the given argument types, in order. */
  function BlockArguments(types: seq<Type>): (args: seq<Value>)
    ensures TypesOf(args) == types
  {
    seq(|types|, i requires 0 <= i < |types| => BlockArgument(i, types[i]))
  }

  /** `createStructuredDoWhileLoopOp`: an `scf.while` whose "before" region is
      the loop body ended by an `scf.condition` on the i1-truncated condition
      forwarding the next-iteration values, and whose "after" region is one
      block that yields its arguments unchanged. The body has at least one
      block; its last block receives the `scf.condition`. */
  function CreateStructuredDoWhileLoopOp(
    loopVariablesInit: seq<Value>, condition: Value,
    loopVariablesNextIter: seq<Value>, loopBody: Region): (r: Result<Op, LiftError>)
    requires |loopBody.blocks| > 0
    ensures r.Success? && r.value.While?
    ensures r.value.resultTypes == TypesOf(loopVariablesInit)
    ensures r.value.inits == loopVariablesInit
    ensures var before := r.value.before.blocks;
            var body := loopBody.blocks;
            var last := |body| - 1;
            && |before| == |body|
            && before[..last] == body[..last]
            && before[last].argTypes == body[last].argTypes
            && before[last].ops == body[last].ops + [Condition(TruncToI1(condition), loopVariablesNextIter)]
    ensures var after := r.value.after.blocks;
            && |after| == 1
            && after[0].argTypes == TypesOf(loopVariablesInit)
            && |after[0].ops| == 1
            && after[0].ops[0].Yield?
            && TypesOf(after[0].ops[0].results) == TypesOf(loopVariablesInit)
  {
    var types := TypesOf(loopVariablesInit);
    var body := loopBody.blocks;
    var last := body[|body| - 1];
    var terminator := Condition(TruncToI1(condition), loopVariablesNextIter);
    var before := Region(body[..|body| - 1] + [Block(last.argTypes, last.ops + [terminator])]);
    var after := Region([Block(types, [Yield(BlockArguments(types))])]);
    Success(While(types, loopVariablesInit, before, after))
  }

  /** Binds block arguments to actual values: the value a use denotes once the
      enclosing block is entered with `actuals`. */
  function Bind(v: Value, actuals: seq<Value>): Value {
    match v
    case BlockArgument(i, _) => if i < |actuals| then actuals[i] else v
    case _ => v
  }

  /** What the single block of a region yields when entered with `actuals`. */
  function YieldedOnEntry(region: Region, actuals: seq<Value>): Option<seq<Value>> {
    if |region.blocks| != 1 || |region.blocks[0].ops| == 0 then None
    else
      var ops := region.blocks[0].ops;
      match ops[|ops| - 1]
      case Yield(results) => Some(seq(|results|, i requires 0 <= i < |results| => Bind(results[i], actuals)))
      case _ => None
  }

  /** The "after" region is the identity: entered with any values of the loop's
      arity it yields exactly those values back, in order. In particular the
      values forwarded by the condition become the next iteration's values. */
  lemma AfterRegionIsIdentity(
    loopVariablesInit: seq<Value>, condition: Value,
    loopVariablesNextIter: seq<Value>, loopBody: Region, actuals: seq<Value>)
    requires |loopBody.blocks| > 0
    requires |actuals| == |loopVariablesInit|
    ensures YieldedOnEntry(
              CreateStructuredDoWhileLoopOp(loopVariablesInit, condition, loopVariablesNextIter, loopBody).value.after,
              actuals) == Some(actuals)
  {
    var loop := CreateStructuredDoWhileLoopOp(loopVariablesInit, condition, loopVariablesNextIter, loopBody).value;
    var types := TypesOf(loopVariablesInit);
    assert loop.after == Region([Block(types, [Yield(BlockArguments(types))])]);
    var results := BlockArguments(types);
    var bound := seq(|results|, i requires 0 <= i < |results| => Bind(results[i], actuals));
    assert YieldedOnEntry(loop.after, actuals) == Some(bound);
    assert forall i :: 0 <= i < |actuals| ==> bound[i] == actuals[i];
    assert bound == actuals;
  }

  /** `getCFGSwitchValue`: an i32 `arith.constant`; the unsigned flag value is
      passed through `int32_t` and still reads back unchanged when zero-extended. */
  function GetCFGSwitchValue(value: u32): (r: Value)
    ensures r.Constant? && TypeOf(r) == IntegerType(32) && r.attr.bits < TWO_TO_THE_32
    ensures ZExtValue(r.attr) == value
  {
    Constant(I32Attr(ToInt32(value)))
  }

  /** `createCFGSwitchOp`: a `cf.switch` on `flag` whose case values are the
      given unsigned values converted to `int32_t` and stored as 32-bit integers. */
  function CreateCFGSwitchOp(
    flag: Value, caseValues: seq<u32>, caseDestinations: seq<BlockId>,
    caseArguments: seq<seq<Value>>, defaultDest: BlockId, defaultArgs: seq<Value>): (r: Op)
    ensures r.Switch? && r.flag == flag
    ensures r.defaultDest == defaultDest && r.defaultArgs == defaultArgs
    ensures r.caseDests == caseDestinations && r.caseArgs == caseArguments
    ensures |r.caseValues| == |caseValues|
    ensures forall i :: 0 <= i < |caseValues| ==>
              r.caseValues[i].width == 32 && r.caseValues[i].bits < TWO_TO_THE_32
              && ZExtValue(r.caseValues[i]) == caseValues[i]
  {
    var attrs := seq(|caseValues|, i requires 0 <= i < |caseValues| => I32Attr(ToInt32(caseValues[i])));
    Switch(flag, defaultDest, defaultArgs, attrs, caseDestinations, caseArguments)
  }

  /** A dispatch switch built by `createCFGSwitchOp` and later lifted by
      `createStructuredBranchRegionOp` keeps its keys: the `scf.index_switch`
      cases are exactly the unsigned values the switch was created with. */
  lemma SwitchKeysRoundTrip(
    flag: Value, caseValues: seq<u32>, caseDestinations: seq<BlockId>,
    caseArguments: seq<seq<Value>>, defaultDest: BlockId, defaultArgs: seq<Value>,
    resultTypes: seq<Type>, regions: seq<Region>)
    requires |regions| == |caseValues| + 1
    ensures var sw := CreateCFGSwitchOp(flag, caseValues, caseDestinations, caseArguments, defaultDest, defaultArgs);
            && RegionsMatch(sw, regions)
            && CreateStructuredBranchRegionOp(sw, resultTypes, regions).value.cases == caseValues
  {
  }

  /** `getUndefValue`: a `ub.poison` of the requested type. */
  function GetUndefValue(ty: Type): (r: Value)
    ensures r.Poison? && TypeOf(r) == ty
  {
    Poison(ty)
  }

  /** `createUnreachableTerminator`: inside a function, a `func.return` of one
      poison value per result type of the function; anywhere else, an error. */
  function CreateUnreachableTerminator(parent: ParentOp): (r: Result<Op, LiftError>)
    ensures r.Success? <==> parent.FuncOp?
    ensures r.Failure? ==> r.error == ExpectedFuncTopLevel
    ensures r.Success? ==>
              && r.value.Return?
              && TypesOf(r.value.operands) == parent.resultTypes
              && forall i :: 0 <= i < |r.value.operands| ==> r.value.operands[i].Poison?
  {
    match parent
    case FuncOp(resultTypes) =>
      Success(Return(seq(|resultTypes|, i requires 0 <= i < |resultTypes| => GetUndefValue(resultTypes[i]))))
    case OtherParent(_) =>
      Failure(ExpectedFuncTopLevel)
  }
}

=== FILE: integers.dfy ===
/** Fixed-width integer types used by the modelled C++ code, and the explicit
    conversions between them (the C++ casts truncate or wrap silently). */
module Integers {

  const TWO_TO_THE_8: int := 0x100
  const TWO_TO_THE_31: int := 0x8000_0000
  const TWO_TO_THE_32: int := 0x1_0000_0000
  const TWO_TO_THE_63: int := 0x8000_0000_0000_0000
  const TWO_TO_THE_64: int := 0x1_0000_0000_0000_0000

  /** An unsigned 8-bit value (`uint8_t`, or a `char` read as unsigned). */
  type byte = b: int | 0 <= b < 0x100

  /** `uint32_t`, and `unsigned int` on the targets LLVM supports. */
  type u32 = x: int | 0 <= x < 0x1_0000_0000

  /** `static_cast<uint32_t>(n)` of a non-negative count: keeps the low 32 bits. */
  function TruncU32(n: nat): (r: u32)
    ensures n < TWO_TO_THE_32 ==> r == n
    ensures (r - n) % TWO_TO_THE_32 == 0
  {
    n % TWO_TO_THE_32
  }

  /** Conversion of an `unsigned int` to `int32_t`: two's-complement reinterpretation. */
  function ToInt32(u: u32): (r: int)
    ensures -TWO_TO_THE_31 <= r < TWO_TO_THE_31
    ensures r % TWO_TO_THE_32 == u
  {
    if u < TWO_TO_THE_31 then u else u - TWO_TO_THE_32
  }

  /** Conversion of a `uint64_t` to `int64_t`: two's-complement reinterpretation. */
  function ToInt64(u: nat): (r: int)
    requires u < TWO_TO_THE_64
    ensures -TWO_TO_THE_63 <= r < TWO_TO_THE_63
    ensures r % TWO_TO_THE_64 == u
  {
    if u < TWO_TO_THE_63 then u else u - TWO_TO_THE_64
  }
}

=== FILE: lift_pass.dfy ===
/** `LiftControlFlowToSCF::runOnOperation`: walks the functions of the
    operation, structures each non-empty body, ORs the per-function "changed"
    flags, and stops at the first function whose structuring fails. The
    structuring algorithm itself is a parameter of the model. */
module LiftPass {
  import opened Results
  import opened ScfIR

  /** A `func.func`; only its body matters to the driver. */
  datatype Func = Func(body: Region)

  datatype PassResult =
    | PassFailure
    | PassSuccess(changed: bool, allAnalysesPreserved: bool)

  /** A function is handed to the structuring algorithm only if its body has blocks. */
  predicate HasBody(f: Func) {
    |f.body.blocks| > 0
  }

  /** No function with a body before index `j` fails to structure. */
  predicate NoFailureBefore(funcs: seq<Func>, transform: Func -> Option<bool>, j: nat)
    requires j <= |funcs|
  {
    forall i :: 0 <= i < j && HasBody(funcs[i]) ==> transform(funcs[i]).Some?
  }

  predicate StrictlyIncreasing(s: seq<nat>) {
    forall a, b :: 0 <= a < b < |s| ==> s[a] < s[b]
  }

  /** The walk over `funcs` in order. `transform` stands for `transformCFGToSCF`
      on one function: `None` is failure, `Some(c)` success with changed flag
      `c`. `transformed` lists the indices of the functions it was applied to. */
  method RunOnOperation(funcs: seq<Func>, transform: Func -> Option<bool>)
    returns (result: PassResult, transformed: seq<nat>)
    ensures result.PassFailure? <==>
              exists j :: 0 <= j < |funcs| && HasBody(funcs[j]) && transform(funcs[j]).None?
    ensures result.PassSuccess? ==>
              && (result.changed <==>
                    exists j :: 0 <= j < |funcs| && HasBody(funcs[j]) && transform(funcs[j]) == Some(true))
              && result.allAnalysesPreserved == !result.changed
    ensures StrictlyIncreasing(transformed)
    ensures forall k :: 0 <= k < |transformed| ==>
              transformed[k] < |funcs| && HasBody(funcs[transformed[k]])
    ensures forall j :: 0 <= j < |funcs| && HasBody(funcs[j]) ==>
              (j in transformed <==> NoFailureBefore(funcs, transform, j))
    ensures result.PassFailure? ==>
              |transformed| > 0 && transform(funcs[transformed[|transformed| - 1]]).None?
  {
    var changed := false;
    transformed := [];
    var i := 0;
    while i < |funcs|
      invariant 0 <= i <= |funcs|
      invariant NoFailureBefore(funcs, transform, i)
      invariant changed <==>
                  exists j :: 0 <= j < i && HasBody(funcs[j]) && transform(funcs[j]) == Some(true)
      invariant StrictlyIncreasing(transformed)
      invariant forall k :: 0 <= k < |transformed| ==>
                  transformed[k] < i && HasBody(funcs[transformed[k]])
      invariant forall j :: 0 <= j < i && HasBody(funcs[j]) ==> j in transformed
    {
      var f := funcs[i];
      if HasBody(f) {
        transformed := transformed + [i];
        var changedFunc := transform(f);
        if changedFunc.None? {
          result := PassFailure;
          assert forall j :: i < j < |funcs| ==> !NoFailureBefore(funcs, transform, j);
          return;
        }
        changed := changed || changedFunc.value;
      }
      i := i + 1;
    }
    result := PassSuccess(changed, !changed);
  }
}

=== FILE: little_endian.dfy ===
/** Little-endian encoding of 32-bit words, as `support::endian::write`
    with `support::little` emits them. */
module LittleEndian {
  import opened Integers

  /** The four bytes of `x`, least significant first. */
  function EncodeU32(x: u32): (r: seq<byte>)
    ensures |r| == 4
    ensures r[0] == x % TWO_TO_THE_8
  {
    [x % 0x100, (x / 0x100) % 0x100, (x / 0x1_0000) % 0x100, x / 0x100_0000]
  }

  /** Reads back a 32-bit word stored least significant byte first. */
  function DecodeU32(b: seq<byte>): (x: u32)
    requires |b| == 4
    ensures x % TWO_TO_THE_8 == b[0]
  {
    b[0] as int + 0x100 * b[1] as int + 0x1_0000 * b[2] as int + 0x100_0000 * b[3] as int
  }

  /** Decoding an encoded word gives the word back. */
  lemma DecodeEncode(x: u32)
    ensures DecodeU32(EncodeU32(x)) == x
  {
  }

  /** Decoding is injective: every four-byte string is the encoding of the word it decodes to. */
  lemma EncodeDecode(b: seq<byte>)
    requires |b| == 4
    ensures EncodeU32(DecodeU32(b)) == b
  {
    var x := DecodeU32(b);
    assert x / 0x100 == b[1] as int + 0x100 * b[2] as int + 0x1_0000 * b[3] as int;
    assert x / 0x1_0000 == b[2] as int + 0x100 * b[3] as int;
    assert x / 0x100_0000 == b[3];
  }
}

=== FILE: psv_info.dfy ===
/** The pipeline-state-validation (PSV) runtime-info part of a DXContainer:
    `PSVRuntimeInfo::write` and the byte layout it produces. */
module PSVInfo {
  import opened Integers
  import opened Results
  import opened LittleEndian

  /** `sizeof` of the versioned structs written by the serialiser. Their values
      come from definitions outside this model, so they are parameters, and no
      ordering between them is assumed. */
  datatype StructSizes = StructSizes(
    v0RuntimeInfo: u32,
    v1RuntimeInfo: u32,
    v2RuntimeInfo: u32,
    v0ResourceBindInfo: u32,
    v2ResourceBindInfo: u32)

  /** The object being written: the bytes of the runtime-info struct and the
      bytes of each resource binding record, in order. */
  datatype RuntimeInfo = RuntimeInfo(baseData: seq<byte>, resources: seq<seq<byte>>)

  /** Number of runtime-info bytes written for a format version. */
  function InfoSize(sizes: StructSizes, version: u32): u32 {
    match version
    case 0 => sizes.v0RuntimeInfo
    case 1 => sizes.v1RuntimeInfo
    case _ => sizes.v2RuntimeInfo
  }

  /** Number of bytes written per resource record for a format version. */
  function BindingSize(sizes: StructSizes, version: u32): u32 {
    match version
    case 0 => sizes.v0ResourceBindInfo
    case 1 => sizes.v0ResourceBindInfo
    case _ => sizes.v2ResourceBindInfo
  }

  /** The in-memory structs are at least as large as the prefixes copied out of
      them (`write` copies `sizeof` bytes straight from each struct). */
  predicate Covers(sizes: StructSizes, version: u32, info: RuntimeInfo) {
    && |info.baseData| >= InfoSize(sizes, version)
    && AllAtLeast(info.resources, BindingSize(sizes, version))
  }

  /** Every record holds at least `n` bytes. */
  predicate AllAtLeast(records: seq<seq<byte>>, n: nat) {
    forall i :: 0 <= i < |records| ==> |records[i]| >= n
  }

  /** The first `n` bytes of every record, concatenated in order. */
  function RecordBytes(records: seq<seq<byte>>, n: nat): (r: seq<byte>)
    requires AllAtLeast(records, n)
    ensures |r| == |records| * n
  {
    if |records| == 0 then []
    else RecordBytes(records[..|records| - 1], n) + records[|records| - 1][..n]
  }

  /** The stream contents `write` produces: size header, info prefix, resource
      count, binding size, then the record prefixes. */
  function Layout(sizes: StructSizes, version: u32, info: RuntimeInfo): seq<byte>
    requires Covers(sizes, version, info)
  {
    var infoSize := InfoSize(sizes, version);
    var bindingSize := BindingSize(sizes, version);
    EncodeU32(infoSize)
      + info.baseData[..infoSize]
      + EncodeU32(TruncU32(|info.resources|))
      + EncodeU32(bindingSize)
      + RecordBytes(info.resources, bindingSize)
  }

  /** `PSVRuntimeInfo::write`: appends to the stream field by field, then each
      resource record in a loop. */
  method Write(sizes: StructSizes, version: u32, info: RuntimeInfo) returns (out: seq<byte>)
    requires Covers(sizes, version, info)
    ensures out == Layout(sizes, version, info)
    ensures |out| == 12 + InfoSize(sizes, version) + |info.resources| * BindingSize(sizes, version)
  {
    var infoSize := InfoSize(sizes, version);
    var bindingSize := BindingSize(sizes, version);
    out := EncodeU32(infoSize);
    out := out + info.baseData[..infoSize];
    var resourceCount := TruncU32(|info.resources|);
    out := out + EncodeU32(resourceCount);
    out := out + EncodeU32(bindingSize);
    ghost var header := out;
    var i := 0;
    while i < |info.resources|
      invariant 0 <= i <= |info.resources|
      invariant out == header + RecordBytes(info.resources[..i], bindingSize)
    {
      assert info.resources[..i + 1][..i] == info.resources[..i];
      out := out + info.resources[i][..bindingSize];
      i := i + 1;
    }
    assert info.resources[..i] == info.resources;
  }

  /** The slice of the record area holding record `i`. */
  lemma {:induction false} RecordAt(records: seq<seq<byte>>, n: nat, i: nat)
    requires AllAtLeast(records, n)
    requires i < |records|
    ensures (i + 1) * n <= |records| * n
    ensures RecordBytes(records, n)[i * n .. (i + 1) * n] == records[i][..n]
    decreases |records|
  {
    var last := |records| - 1;
    var front := records[..last];
    assert RecordBytes(records, n) == RecordBytes(front, n) + records[last][..n];
    assert |RecordBytes(front, n)| == last * n;
    assert (i + 1) * n == i * n + n;
    if i < last {
      RecordAt(front, n, i);
      assert front[i] == records[i];
    } else {
      assert i * n == last * n;
    }
  }

  /** Every u32 field decodes to what `write` puts there: the header to
      the version's info size, the count to the resource count truncated to 32
      bits, and the binding-size field to the version's binding size. */
  lemma FieldsDecode(sizes: StructSizes, version: u32, info: RuntimeInfo)
    requires Covers(sizes, version, info)
    ensures var out := Layout(sizes, version, info);
            var infoSize := InfoSize(sizes, version);
            && DecodeU32(out[..4]) == infoSize
            && DecodeU32(out[4 + infoSize .. 8 + infoSize]) == |info.resources| % TWO_TO_THE_32
            && (|info.resources| < TWO_TO_THE_32 ==> DecodeU32(out[4 + infoSize .. 8 + infoSize]) == |info.resources|)
            && DecodeU32(out[8 + infoSize .. 12 + infoSize]) == BindingSize(sizes, version)
    ensures version == 0 ==> DecodeU32(Layout(sizes, version, info)[..4]) == sizes.v0RuntimeInfo
    ensures version == 1 ==> DecodeU32(Layout(sizes, version, info)[..4]) == sizes.v1RuntimeInfo
    ensures version >= 2 ==> DecodeU32(Layout(sizes, version, info)[..4]) == sizes.v2RuntimeInfo
    ensures version <= 1 ==> BindingSize(sizes, version) == sizes.v0ResourceBindInfo
    ensures version >= 2 ==> BindingSize(sizes, version) == sizes.v2ResourceBindInfo
  {
    var out := Layout(sizes, version, info);
    var infoSize := InfoSize(sizes, version);
    var count := TruncU32(|info.resources|);
    assert out[..4] == EncodeU32(infoSize);
    assert out[4 + infoSize .. 8 + infoSize] == EncodeU32(count);
    assert out[8 + infoSize .. 12 + infoSize] == EncodeU32(BindingSize(sizes, version));
    DecodeEncode(infoSize);
    DecodeEncode(count);
    DecodeEncode(BindingSize(sizes, version));
  }

  /** Resource record `i` occupies exactly the binding size in bytes, at offset
      `12 + InfoSize + i * BindingSize`, and holds that record's prefix. */
  lemma ResourceOffsets(sizes: StructSizes, version: u32, info: RuntimeInfo, i: nat)
    requires Covers(sizes, version, info)
    requires i < |info.resources|
    ensures var infoSize := InfoSize(sizes, version);
            var bindingSize := BindingSize(sizes, version);
            var start := 12 + infoSize + i * bindingSize;
            && start + bindingSize <= |Layout(sizes, version, info)|
            && Layout(sizes, version, info)[start .. start + bindingSize]
               == info.resources[i][..bindingSize]
  {
    var infoSize := InfoSize(sizes, version);
    var bindingSize := BindingSize(sizes, version);
    var header := EncodeU32(infoSize) + info.baseData[..infoSize]
      + EncodeU32(TruncU32(|info.resources|)) + EncodeU32(bindingSize);
    var body := RecordBytes(info.resources, bindingSize);
    assert |header| == 12 + infoSize;
    assert Layout(sizes, version, info) == header + body;
    RecordAt(info.resources, bindingSize, i);
    assert (i + 1) * bindingSize == i * bindingSize + bindingSize;
    var start := 12 + infoSize + i * bindingSize;
    assert (header + body)[start .. start + bindingSize] == body[i * bindingSize .. (i + 1) * bindingSize];
  }

  /** Every version number above 2 is written exactly as version 2. */
  lemma VersionsFromTwoAgree(sizes: StructSizes, version: u32, info: RuntimeInfo)
    requires version >= 2
    requires Covers(sizes, 2, info)
    ensures Covers(sizes, version, info)
    ensures Layout(sizes, version, info) == Layout(sizes, 2, info)
  {
  }

  /** Version 1 differs from version 0 only in the info struct: the resource
      count, binding size and record area are the same bytes. */
  lemma VersionOneKeepsV0Bindings(sizes: StructSizes, info: RuntimeInfo)
    requires Covers(sizes, 0, info) && Covers(sizes, 1, info)
    ensures Layout(sizes, 1, info)[4 + sizes.v1RuntimeInfo ..]
         == Layout(sizes, 0, info)[4 + sizes.v0RuntimeInfo ..]
  {
  }

  /** What a reader recovers from a PSV runtime-info blob. */
  datatype PSVView = PSVView(
    infoSize: u32,
    info: seq<byte>,
    resourceCount: u32,
    bindingSize: u32,
    records: seq<seq<byte>>)

  /** Splits `s` into `count` consecutive chunks of `n` bytes each. */
  function Chunks(s: seq<byte>, count: nat, n: nat): (r: seq<seq<byte>>)
    requires |s| == count * n
    ensures |r| == count
    ensures forall i :: 0 <= i < count ==> |r[i]| == n
  {
    if count == 0 then []
    else
      assert count * n == (count - 1) * n + n;
      Chunks(s[..(count - 1) * n], count - 1, n) + [s[(count - 1) * n ..]]
  }

  /** A reference reader for the layout, independent of the writer: reads the
      size header, the info bytes, the count and binding size, then exactly
      `count` records of the binding size; anything else is rejected. */
  function Read(bytes: seq<byte>): Option<PSVView> {
    if |bytes| < 4 then None
    else
      var infoSize := DecodeU32(bytes[..4]);
      if |bytes| < 12 + infoSize then None
      else
        var count := DecodeU32(bytes[4 + infoSize .. 8 + infoSize]);
        var bindingSize := DecodeU32(bytes[8 + infoSize .. 12 + infoSize]);
        var rest := bytes[12 + infoSize ..];
        if |rest| != count * bindingSize then None
        else Some(PSVView(infoSize, bytes[4 .. 4 + infoSize], count, bindingSize,
                          Chunks(rest, count, bindingSize)))
  }

  /** The first `n` bytes of each record. */
  function Prefixes(records: seq<seq<byte>>, n: nat): (r: seq<seq<byte>>)
    requires AllAtLeast(records, n)
  {
    seq(|records|, i requires 0 <= i < |records| => records[i][..n])
  }

  lemma {:induction false} ChunksOfRecordBytes(records: seq<seq<byte>>, n: nat)
    requires AllAtLeast(records, n)
    ensures Chunks(RecordBytes(records, n), |records|, n) == Prefixes(records, n)
    decreases |records|
  {
    if |records| > 0 {
      var last := |records| - 1;
      var front := records[..last];
      var all := RecordBytes(records, n);
      assert all == RecordBytes(front, n) + records[last][..n];
      assert |records| * n == last * n + n;
      assert all[..last * n] == RecordBytes(front, n);
      assert all[last * n ..] == records[last][..n];
      ChunksOfRecordBytes(front, n);
      assert Prefixes(records, n) == Prefixes(front, n) + [records[last][..n]];
    }
  }

  /** Reading what `write` produced recovers the info size, the info bytes, the
      resource count, the binding size and every record prefix in order,
      provided the resource count fits the 32-bit count field. */
  lemma ReadLayout(sizes: StructSizes, version: u32, info: RuntimeInfo)
    requires Covers(sizes, version, info)
    requires |info.resources| < TWO_TO_THE_32
    ensures Read(Layout(sizes, version, info))
         == Some(PSVView(InfoSize(sizes, version),
                         info.baseData[..InfoSize(sizes, version)],
                         |info.resources|,
                         BindingSize(sizes, version),
                         Prefixes(info.resources, BindingSize(sizes, version))))
  {
    var out := Layout(sizes, version, info);
    var infoSize := InfoSize(sizes, version);
    var bindingSize := BindingSize(sizes, version);
    FieldsDecode(sizes, version, info);
    var body := RecordBytes(info.resources, bindingSize);
    assert out[12 + infoSize ..] == body;
    assert out[4 .. 4 + infoSize] == info.baseData[..infoSize];
    ChunksOfRecordBytes(info.resources, bindingSize);
  }
}

=== FILE: results.dfy ===
/** Failure-carrying return types: `FailureOr<T>` / `LogicalResult` on the MLIR
    side, and evaluation errors of the constant interpreter. */
module Results {

  datatype Option<+T> = None | Some(value: T)

  datatype Result<+T, +E> = Success(value: T) | Failure(error: E)
}

=== FILE: scf_ir.dfy ===
/** An abstract slice of MLIR: the types, values, operations, blocks and
    regions that the control-flow-to-SCF materializer consumes and builds.
    A value is described by the operation that defines it, so every value the
    materializer creates carries its provenance. */
module ScfIR {
  import opened Integers

  datatype Type =
    | IntegerType(width: nat)   // iN
    | IndexType                 // index
    | OtherType(id: nat)        // any other type, opaque here

  /** An arbitrary-precision integer as stored in an attribute: `width` bits
      holding the unsigned pattern `bits`. */
  datatype APInt = APInt(width: nat, bits: nat)

  /** `APInt::getZExtValue`: the stored pattern read as an unsigned number;
      `getZExtValue` asserts that it fits in 64 bits. */
  function ZExtValue(a: APInt): (r: nat)
    requires a.bits < TWO_TO_THE_64
    ensures r < TWO_TO_THE_64
  {
    a.bits
  }

  /** `getI32IntegerAttr(v)`: a 32-bit attribute holding the two's-complement
      pattern of `v`. */
  function I32Attr(v: int): (r: APInt)
    requires -TWO_TO_THE_31 <= v < TWO_TO_THE_31
    ensures r.width == 32 && r.bits < TWO_TO_THE_32
    ensures (r.bits - v) % TWO_TO_THE_32 == 0
    ensures 0 <= v ==> r.bits == v
  {
    APInt(32, v % TWO_TO_THE_32)
  }

  datatype Value =
    | Arg(id: nat, ty: Type)                // a value the caller hands in
    | BlockArgument(index: nat, ty: Type)   // argument `index` of the enclosing block
    | IndexCastUI(source: Value)            // arith.index_cast_ui to index
    | TruncToI1(source: Value)              // arith.trunci to i1
    | Constant(attr: APInt)                 // arith.constant
    | Poison(ty: Type)                      // ub.poison

  function TypeOf(v: Value): Type {
    match v
    case Arg(_, ty) => ty
    case BlockArgument(_, ty) => ty
    case IndexCastUI(_) => IndexType
    case TruncToI1(_) => IntegerType(1)
    case Constant(attr) => IntegerType(attr.width)
    case Poison(ty) => ty
  }

  function TypesOf(vs: seq<Value>): (r: seq<Type>)
    ensures |r| == |vs|
  {
    seq(|vs|, i requires 0 <= i < |vs| => TypeOf(vs[i]))
  }

  /** Successor blocks are referred to by an opaque identifier. */
  type BlockId = nat

  datatype Op =
    // Unstructured terminators (cf dialect).
    | CondBranch(condition: Value,
                 trueDest: BlockId, trueArgs: seq<Value>,
                 falseDest: BlockId, falseArgs: seq<Value>)
    | Switch(flag: Value,
             defaultDest: BlockId, defaultArgs: seq<Value>,
             caseValues: seq<APInt>,
             caseDests: seq<BlockId>, caseArgs: seq<seq<Value>>)
    // Structured operations (scf dialect).
    | If(resultTypes: seq<Type>, condition: Value, thenRegion: Region, elseRegion: Region)
    | IndexSwitch(resultTypes: seq<Type>, selector: Value, cases: seq<int>,
                  defaultRegion: Region, caseRegions: seq<Region>)
    | While(resultTypes: seq<Type>, inits: seq<Value>, before: Region, after: Region)
    | Condition(condition: Value, forwarded: seq<Value>)
    | Yield(results: seq<Value>)
    // func.return
    | Return(operands: seq<Value>)
    // Any other operation, identified by name only.
    | OtherOp(name: string)

  datatype Block = Block(argTypes: seq<Type>, ops: seq<Op>)

  datatype Region = Region(blocks: seq<Block>)

  /** The operation that owns a region: a function with its result types, or
      something else. */
  datatype ParentOp =
    | FuncOp(resultTypes: seq<Type>)
    | OtherParent(name: string)
}
